=== FILE: README.md ===
# Lingver locale coordinator — a Dafny model

Lingver is an Android library that lets an application override its UI locale. The locale is
either fixed by the user or follows the device locale. The choice is persisted and applied to
the process default locale and to every context's resource configuration. This project models
the library's coordinator (`Lingver`, with its companion object's `init`/`getInstance`) and its
default store (`PreferenceLocaleStore`), and proves what they promise.

Modules:

- `Locales`: the `Locale` value (language, country, variant, with structural equality) and the
  deprecated-language table (`iw`→`he`, `ji`→`yi`, `in`→`id`).
- `LocaleJson`: the three-field JSON record the store writes under `language_key`. It has an
  encoder, a decoder that reports a malformed record, and the round trip between them.
- `Store`: the preference file as a `map<string, PrefValue>`. The pure readers `ReadLocale` and
  `ReadFollow` model the `ClassCastException` and `JSONException` a read can raise. The class
  `PreferenceLocaleStore` reassigns its `prefs` field on every write.
- `LocaleLists`: the ordered set that `setLocaleForApi24` builds with a `LinkedHashSet`. `Dedup`
  is its reference definition. `KeepsFirstOccurrences` is the independent characterisation: same
  elements, no repeats, ordered by first occurrence.
- `Platform`: the Android state the coordinator touches. Contexts are compared by identity and
  each one maps to its configuration's locale list. The module also holds the process default
  locale, the device locale list, activity labels and titles.
- `LingverCore`: the class `Lingver` and the class `LingverCompanion`, which holds the instance
  slot. `Lingver` keeps `deviceLocale` and a ghost log of the calls it makes (`SetFollow`,
  `Persist`, `Apply`, callback registration), so the contracts can state call order. The abstract
  state machine `Mode = Fixed(l) | Following(l)` gives each operation its partner: every
  operation states the new `CurrentMode()`. `TracksDevice()` says that while following, the stored
  locale is the last observed device locale. `SetLocale`, `SetFollowDeviceLocale`, `SetUp` and
  `OnConfigurationChanged` establish it when they succeed. The other public and internal operations
  (`GetLocale`, `GetLanguage`, `IsFollowingDeviceLocale`, `ApplyLocale`) write neither the store nor
  `deviceLocale`, so an instance returned by `init` keeps it. The private step `PersistAndApply`
  writes the record without looking at the flag, so it alone does not keep it.
- `Scenarios`: client methods that follow the library's unit tests. Each one checks what a
  caller can conclude from the contracts alone.

Notes on the source:

- `setUp` persists `store.getLocale()` again in both branches, even when nothing is followed
  (Lingver.kt:114). The library's test `setup_isNotFollowingDeviceLocale_persistLocale`
  (LingverTest.kt:180-188) checks the same thing.
- Lingver.kt calls `store.setFollowDeviceLocale` / `isFollowingDeviceLocale`, but
  PreferenceLocaleStore.kt defines `setFollowSystemLocale` / `isFollowingSystemLocale`. The model
  has one flag, read and written through the store's own names.
- LingverTest.kt targets a later API (an update delegate, `initialize`). The model follows
  Lingver.kt. Applying a locale is `update` / `updateResources`, as written there.
- A store read can throw: `ClassCastException` for a value of the other type, `JSONException`
  for a malformed record. Such an exception escapes from the coordinator method that made the
  read. Every coordinator method that reads returns a `Result` carrying it. The methods that
  only write (`setLocale`, `setFollowDeviceLocale`) accept any preference file and leave a
  readable one. The private step `persistAndApply` accepts any file too. It makes the record
  readable and leaves the flag as it was. While following, `setUp` and `onConfigurationChanged` overwrite
  the record before they read it, so a malformed record does not surface there (`Resolve`).

## Model

| member | source | states |
|---|---|---|
| Locales.VerifyLanguage | library/src/main/java/com/yariksoffice/lingver/Lingver.kt:98-106 | deprecated codes iw, ji, in map to he, yi, id; every other code is returned unchanged; the result is never a deprecated code |
| LocaleJson.DecodeEncode | library/src/main/java/com/yariksoffice/lingver/store/PreferenceLocaleStore.kt:43-63 | the record written for a locale reads back as the same language, country and variant |
| LocaleJson.EncodeStartsWithBrace | library/src/main/java/com/yariksoffice/lingver/store/PreferenceLocaleStore.kt:57-62 | the record opens with a brace, so it is never blank and is never read as "nothing stored" |
| LocaleJson.MalformedRecordsRejected | library/src/main/java/com/yariksoffice/lingver/store/PreferenceLocaleStore.kt:46-50 | only an object text reads back; any text that nowhere opens the language, country or variant member is malformed, as getString throws for a missing key |
| Store.NothingStoredReadsDefault | library/src/main/java/com/yariksoffice/lingver/store/PreferenceLocaleStore.kt:43-54 | with no string, or a blank one, under language_key, getLocale returns the constructor's default locale |
| Store.UnsetFlagReadsFalse | library/src/main/java/com/yariksoffice/lingver/store/PreferenceLocaleStore.kt:69-71 | a follow flag that was never written reads false |
| Store.PersistedLocaleReadsBack | library/src/main/java/com/yariksoffice/lingver/store/PreferenceLocaleStore.kt:43-63 | after persistLocale(l), getLocale returns l, never the default (an encoded record is never blank) |
| Store.LastPersistWins | library/src/main/java/com/yariksoffice/lingver/store/PreferenceLocaleStore.kt:62 | a second persistLocale(m) replaces the first record: getLocale returns m |
| Store.WritesTouchOwnKey | library/src/main/java/com/yariksoffice/lingver/store/PreferenceLocaleStore.kt:56-67 | persisting a locale leaves the flag's reading unchanged; setting the flag leaves the locale's reading unchanged and reads back the value set |
| Store.PreferenceLocaleStore.constructor | library/src/main/java/com/yariksoffice/lingver/store/PreferenceLocaleStore.kt:35-41 | the store keeps its default locale, its preference name (lingver_preference unless given) and the saved preferences |
| Store.PreferenceLocaleStore.GetLocale | library/src/main/java/com/yariksoffice/lingver/store/PreferenceLocaleStore.kt:43-54 | returns the stored record, the default when absent or blank, or the exception a wrong type or malformed record raises |
| Store.PreferenceLocaleStore.PersistLocale | library/src/main/java/com/yariksoffice/lingver/store/PreferenceLocaleStore.kt:56-63 | writes only language_key, with the locale's record; the locale then reads back and the flag's reading is unchanged |
| Store.PreferenceLocaleStore.SetFollowSystemLocale | library/src/main/java/com/yariksoffice/lingver/store/PreferenceLocaleStore.kt:65-67 | writes only follow_system_locale_key; the flag reads back the value and the locale's reading is unchanged |
| Store.PreferenceLocaleStore.IsFollowingSystemLocale | library/src/main/java/com/yariksoffice/lingver/store/PreferenceLocaleStore.kt:69-71 | returns the stored flag, false when absent, or a ClassCastException for a string under the key |
| LocaleLists.DedupKeepsFirstOccurrences | library/src/main/java/com/yariksoffice/lingver/Lingver.kt:161-171 | the ordered set holds every input locale exactly once, ordered by first occurrence, so the other locales keep their relative order |
| LocaleLists.DedupHead | library/src/main/java/com/yariksoffice/lingver/Lingver.kt:162-163 | the locale inserted first stays at index 0 |
| LingverCore.FixedIgnoresDeviceChanges | library/src/main/java/com/yariksoffice/lingver/Lingver.kt:126-132 | a fixed locale survives every series of device locale changes |
| LingverCore.FollowingTracksLastChange | library/src/main/java/com/yariksoffice/lingver/Lingver.kt:126-132 | while following, the active locale ends as the last device locale observed |
| LingverCore.CurrentLocale | library/src/main/java/com/yariksoffice/lingver/Lingver.kt:186-188 | a configuration reports one of its own locales, its first; an empty list reports none |
| LingverCore.ResolveFollowsMode | library/src/main/java/com/yariksoffice/lingver/Lingver.kt:108-115 | on a readable file, the locale setUp and onConfigurationChanged apply is the one the mode machine predicts: the device locale when following, the fixed locale otherwise |
| LingverCore.ResolveFailures | library/src/main/java/com/yariksoffice/lingver/Lingver.kt:111-114 | while following, the device locale is persisted before the read, so a malformed record never surfaces; otherwise the outcome fails exactly when the flag read or the record read fails |
| LingverCore.Reconfigured | library/src/main/java/com/yariksoffice/lingver/Lingver.kt:143-158 | after updateResources the context reports the locale; other contexts are untouched; a context that already reports it is not reconfigured |
| LingverCore.UpdatedConfigs | library/src/main/java/com/yariksoffice/lingver/Lingver.kt:134-140 | after update both the context and the application context report the locale; every other context is untouched |
| LingverCore.UpdateIdempotent | library/src/main/java/com/yariksoffice/lingver/Lingver.kt:147-149 | applying the same locale a second time changes no configuration |
| LingverCore.Lingver.constructor | library/src/main/java/com/yariksoffice/lingver/Lingver.kt:48-50 | the coordinator starts with its store, the given device locale and no calls made |
| LingverCore.Lingver.SetLocaleFromCodes | library/src/main/java/com/yariksoffice/lingver/Lingver.kt:58-61 | the overload with country and variant defaulting to "" has exactly the effect of SetLocale with Locale(language, country, variant) |
| LingverCore.Lingver.SetLocale | library/src/main/java/com/yariksoffice/lingver/Lingver.kt:69-72 | over any file, the flag becomes false and the stored locale becomes l (mode Fixed(l)); calls are SetFollow(false), Persist(l), Apply(ctx, l) in that order; the process default and both contexts report l |
| LingverCore.Lingver.GetLocale | library/src/main/java/com/yariksoffice/lingver/Lingver.kt:77-79 | returns what the store reads, or its exception, and writes nothing; on a readable file it is the current mode's locale |
| LingverCore.Lingver.GetLanguage | library/src/main/java/com/yariksoffice/lingver/Lingver.kt:87-89 | fails exactly when the record read fails, with the same exception; otherwise returns the stored language with deprecated codes replaced, never a deprecated code |
| LingverCore.Lingver.SetFollowDeviceLocale | library/src/main/java/com/yariksoffice/lingver/Lingver.kt:91-94 | over any file, the flag becomes true and the in-memory device locale, not the previous fixed one, is persisted and then applied (mode Following(deviceLocale)) |
| LingverCore.Lingver.IsFollowingDeviceLocale | library/src/main/java/com/yariksoffice/lingver/Lingver.kt:96 | returns the stored flag or its ClassCastException, whatever the record holds; true exactly in the Following mode |
| LingverCore.Lingver.SetUp | library/src/main/java/com/yariksoffice/lingver/Lingver.kt:108-115 | registers both callbacks; persists the device locale first when following; then persists the stored locale again and applies it to the application. The outcome is Resolve: a failing read leaves the file and the platform untouched after the registration; on a readable file the mode moves as OnDeviceLocale says |
| LingverCore.Lingver.PersistAndApply | library/src/main/java/com/yariksoffice/lingver/Lingver.kt:117-120 | over any file, persists the locale before applying it; the locale then reads back and the flag's reading is unchanged |
| LingverCore.Lingver.ApplyLocale | library/src/main/java/com/yariksoffice/lingver/Lingver.kt:122-124 | applies the stored locale to the context without writing the store; a failing record read applies nothing |
| LingverCore.Lingver.OnConfigurationChanged | library/src/main/java/com/yariksoffice/lingver/Lingver.kt:126-132 | deviceLocale always becomes the configuration's locale; when following it is persisted before the apply; when fixed nothing is persisted and the fixed locale is re-applied; a failing read applies nothing; the outcome is Resolve |
| LingverCore.Lingver.Update | library/src/main/java/com/yariksoffice/lingver/Lingver.kt:134-140 | reconfigures the context, and the application context exactly when it is a different context; the process default becomes the locale |
| LingverCore.Lingver.UpdateResources | library/src/main/java/com/yariksoffice/lingver/Lingver.kt:143-158 | always sets the process default locale; skips reconfiguration when the context already reports the locale |
| LingverCore.Lingver.SetLocaleForApi24 | library/src/main/java/com/yariksoffice/lingver/Lingver.kt:161-171 | the new list has the target at index 0, contains every device locale once, has no duplicates and keeps the device locales' relative order |
| LingverCore.Lingver.ResetActivityTitle | library/src/main/java/com/yariksoffice/lingver/Lingver.kt:173-183 | the title is set to the label exactly when the lookup succeeds and the label is not 0; otherwise nothing changes |
| LingverCore.LingverCompanion.constructor | library/src/main/java/com/yariksoffice/lingver/Lingver.kt:194-198 | the instance slot starts empty; the default locale is the process default when the companion is loaded |
| LingverCore.LingverCompanion.GetInstance | library/src/main/java/com/yariksoffice/lingver/Lingver.kt:205-209 | fails with "Lingver should be initialized first" before any init, otherwise returns the instance |
| LingverCore.LingverCompanion.Init | library/src/main/java/com/yariksoffice/lingver/Lingver.kt:233-240 | fails with "Already initialized", touching nothing, when an instance exists, whatever the store holds; otherwise the new instance is set up before it fills the slot, and a setUp failure leaves the slot empty; on success the process default and the application's configuration report the resolved locale, and the log is setUp's |
| LingverCore.LingverCompanion.InitWithLocale | library/src/main/java/com/yariksoffice/lingver/Lingver.kt:222-226 | init with a new preference store over the saved preferences and the given default locale; a second call fails with "Already initialized" over any saved file; on success the process default and the application's configuration report the resolved locale, and the log is setUp's |
| LingverCore.LingverCompanion.InitWithLanguage | library/src/main/java/com/yariksoffice/lingver/Lingver.kt:214-217 | init with the default locale built from a language code alone; a second call fails with "Already initialized" over any saved file; on success the process default and the application's configuration report the resolved locale, and the log is setUp's |
| LingverCore.LingverCompanion.InitWithProcessDefault | library/src/main/java/com/yariksoffice/lingver/Lingver.kt:223-224 | init whose default locale is the process default locale at the call; a second call fails with "Already initialized" over any saved file; on success the process default and the application's configuration report the resolved locale, and the log is setUp's |

## Left out

- Android resources: `Resources.updateConfiguration`, the `Configuration` copy and the SDK-version branches are not modelled. Only the API 24+ branch is modelled: a configuration is its locale list, and `getLocaleCompat` is the list's head.
- `LocaleList.getDefault()` is a fixed input (`Environment.systemLocales`). The platform's reordering of that list after `Locale.setDefault` is not modelled.
- The process default locale is a field of `Environment`, not a JVM global.
- The lifecycle callback classes are not part of this model. Registering them is recorded as two log events. Their effect is modelled as direct calls: `ApplyLocale` plus `ResetActivityTitle` when an activity is created, and `OnConfigurationChanged` on a configuration change.
- The package manager lookup is the `labels` map: a missing activity stands for `NameNotFoundException`. The stack trace the source prints is left out.
- `SharedPreferences`: writes are synchronous map updates (`apply()` is asynchronous in the source). The file is the `saved` map passed to the store's constructor, not looked up through a `Context`.
- `org.json`: the decoder accepts the layout the encoder writes and the escapes `\" \\ \/ \b \f \n \r \t`. Other JSON texts that `org.json` would accept read as malformed: other whitespace, another member order, extra members, `\u` escapes. The encoder escapes only `"`, `\`, backspace, tab, line feed, form feed and carriage return. Android's built-in `org.json` also escapes `/`, writes other control characters and U+2028/U+2029 as `\u` escapes. The model's encoder writes those characters unescaped. Its decoder reads `/` in both forms. These differences do not affect the round trip between the model's encoder and decoder.
- `java.util.Locale` canonicalisation (case folding, legacy language mapping in the constructor) belongs to a foreign library and is left out. A locale is the plain triple it was built from.
- `init(application, store)` accepts any `LocaleStore`. The model takes a `PreferenceLocaleStore`; other store implementations are not part of this model.
- LingverCore.LingverCompanion.Init: when setUp fails, the source leaves the discarded instance's callbacks registered with the application. The model records the registration only in that instance's log; later callbacks into it are not modelled.
- Store.PreferenceLocaleStore.constructor: the `defaultLocale = Locale.getDefault()` default argument is not modelled, because Dafny default arguments cannot read the environment. The default locale is a required parameter. `InitWithProcessDefault` passes the process default, as `init(application)` does.
- The tests assign `deviceLocale` directly. Here it is a constructor parameter of `Lingver`; the companion passes the process default captured when it is loaded.
- LingverCore.Lingver.OnConfigurationChanged takes the new configuration's locale (what `getLocaleCompat` reports for it), not the `Configuration` object.
- LingverCore.Lingver.SetUp takes no parameter: it registers with, and applies to, `Environment.application`, the application passed to `init`.
- Threading: every call runs on the main thread, so no concurrency is modelled.

=== FILE: LingverCore.dfy ===
/** Lingver: the coordinator that keeps the application locale either fixed to the user's
    choice or following the device locale, persists that choice in a PreferenceLocaleStore
    and applies it to the process default locale and to each context's configuration. */
module LingverCore {
  import opened Wrappers
  import opened Locales
  import opened LocaleJson
  import opened LocaleLists
  import opened Store
  import opened Platform

  const AlreadyInitializedMessage := "Already initialized"
  const NotInitializedMessage := "Lingver should be initialized first"

  /** The exceptions that escape the companion's entry points: the IllegalStateException that
      `check` raises, or the store exception that setUp lets through. */
  datatype LingverError = IllegalState(message: string) | StoreFailure(cause: ReadError)

  /** The calls the coordinator makes, in the order it makes them. */
  datatype Event =
    | RegisterActivityCallbacks
    | RegisterComponentCallbacks
    | SetFollow(follow: bool)
    | Persist(locale: Locale)
    | Apply(context: Context, locale: Locale)

  /** The two modes: a locale fixed by the user, or the device locale being followed. */
  datatype Mode = Fixed(locale: Locale) | Following(locale: Locale)

  /** The mode a preference file records. */
  function ModeOf(prefs: Prefs, defaultLocale: Locale): Mode
    requires ReadLocale(prefs, defaultLocale).Success? && ReadFollow(prefs).Success?
  {
    var l := ReadLocale(prefs, defaultLocale).value;
    if ReadFollow(prefs).value then Following(l) else Fixed(l)
  }

  /** The mode after the device locale is observed, at start-up or on a configuration change:
      a followed locale becomes the device locale, a fixed one stays. */
  function OnDeviceLocale(m: Mode, device: Locale): Mode
  {
    match m
    case Following(_) => Following(device)
    case Fixed(_) => m
  }

  /** The mode after a series of device locale changes. */
  function Replay(m: Mode, changes: seq<Locale>): Mode
    decreases changes
  {
    if changes == [] then m else Replay(OnDeviceLocale(m, changes[0]), changes[1..])
  }

  /** A fixed locale survives every series of device locale changes. */
  lemma {:induction false} FixedIgnoresDeviceChanges(l: Locale, changes: seq<Locale>)
    ensures Replay(Fixed(l), changes) == Fixed(l)
  {
    if changes != [] {
      FixedIgnoresDeviceChanges(l, changes[1..]);
    }
  }

  /** A followed locale ends as the last device locale observed. */
  lemma {:induction false} FollowingTracksLastChange(l: Locale, changes: seq<Locale>)
    requires |changes| > 0
    ensures Replay(Following(l), changes) == Following(changes[|changes| - 1])
    decreases changes
  {
    if |changes| > 1 {
      FollowingTracksLastChange(changes[0], changes[1..]);
    }
  }

  /** The locale a configuration reports (getLocaleCompat): the head of its locale list,
      or none for an empty list. */
  function CurrentLocale(locales: seq<Locale>): (r: Option<Locale>)
    ensures r.None? <==> locales == []
    ensures r.Some? ==> r.value in locales
  {
    if |locales| > 0 then Some(locales[0]) else None
  }

  /** The configurations after updateResources(c, l): untouched when c already reports l,
      otherwise c gets l in front of the device's locales. */
  function Reconfigured(configs: map<Context, seq<Locale>>, c: Context, l: Locale, system: seq<Locale>)
    : (r: map<Context, seq<Locale>>)
    requires c in configs
    ensures r.Keys == configs.Keys && CurrentLocale(r[c]) == Some(l)
    ensures forall d :: d in configs && d != c ==> r[d] == configs[d]
    ensures CurrentLocale(configs[c]) == Some(l) ==> r == configs
  {
    if CurrentLocale(configs[c]) == Some(l) then configs
    else
      DedupHead([l] + system);
      configs[c := Dedup([l] + system)]
  }

  /** The configurations after update(ctx, l): ctx and the application context report l,
      every other context is untouched. */
  function UpdatedConfigs(configs: map<Context, seq<Locale>>, ctx: Context, app: Context, l: Locale,
                          system: seq<Locale>): (r: map<Context, seq<Locale>>)
    requires ctx in configs && app in configs
    ensures r.Keys == configs.Keys
    ensures CurrentLocale(r[ctx]) == Some(l) && CurrentLocale(r[app]) == Some(l)
    ensures forall d :: d in configs && d != ctx && d != app ==> r[d] == configs[d]
  {
    var c1 := Reconfigured(configs, ctx, l, system);
    if app != ctx then Reconfigured(c1, app, l, system) else c1
  }

  /** Applying the same locale twice reconfigures nothing the second time. */
  lemma UpdateIdempotent(configs: map<Context, seq<Locale>>, ctx: Context, app: Context, l: Locale,
                         system: seq<Locale>)
    requires ctx in configs && app in configs
    ensures UpdatedConfigs(UpdatedConfigs(configs, ctx, app, l, system), ctx, app, l, system)
         == UpdatedConfigs(configs, ctx, app, l, system)
  {
  }

  /** The calls setUp makes: register both callbacks, persist the device locale when following,
      then persist and apply the resolved locale to the application. */
  function SetUpLog(following: bool, device: Locale, resolved: Locale, app: Context): seq<Event>
  {
    [RegisterActivityCallbacks, RegisterComponentCallbacks]
      + (if following then [Persist(device)] else [])
      + [Persist(resolved), Apply(app, resolved)]
  }

  /** The locale that setUp and onConfigurationChanged go on to apply once the device locale
      `device` is observed: the flag is read; when it is set, `device` is persisted; then the
      record is read. A failing read is the exception the source lets escape. */
  function Resolve(prefs: Prefs, defaultLocale: Locale, device: Locale): Result<Locale, ReadError>
  {
    var following :- ReadFollow(prefs);
    ReadLocale(if following then prefs[LanguageKey := PrefString(Encode(device))] else prefs, defaultLocale)
  }

  /** On a readable file, the resolved locale is the one the mode machine predicts. */
  lemma ResolveFollowsMode(prefs: Prefs, defaultLocale: Locale, device: Locale)
    requires ReadLocale(prefs, defaultLocale).Success? && ReadFollow(prefs).Success?
    ensures Resolve(prefs, defaultLocale, device) == Success(OnDeviceLocale(ModeOf(prefs, defaultLocale), device).locale)
  {
    PersistedLocaleReadsBack(prefs, defaultLocale, device);
  }

  /** While following, the stored record is overwritten before it is read, so a malformed
      record never surfaces; otherwise the resolution fails exactly when a read fails. */
  lemma ResolveFailures(prefs: Prefs, defaultLocale: Locale, device: Locale)
    ensures ReadFollow(prefs) == Success(true) ==> Resolve(prefs, defaultLocale, device) == Success(device)
    ensures Resolve(prefs, defaultLocale, device).Failure? <==>
      ReadFollow(prefs).Failure? || (ReadFollow(prefs) == Success(false) && ReadLocale(prefs, defaultLocale).Failure?)
  {
    PersistedLocaleReadsBack(prefs, defaultLocale, device);
  }

  class Lingver {
    const store: PreferenceLocaleStore
    const env: Environment
    /** The device locale last observed. */
    var deviceLocale: Locale
    /** The calls made so far. */
    ghost var log: seq<Event>

    /** `deviceLocale` is the process default locale when the library is loaded. */
    constructor (store: PreferenceLocaleStore, env: Environment, deviceLocale: Locale)
      ensures this.store == store && this.env == env && this.deviceLocale == deviceLocale
      ensures log == []
    {
      this.store := store;
      this.env := env;
      this.deviceLocale := deviceLocale;
      log := [];
    }

    /** Both store reads succeed and the application has a configuration. */
    ghost predicate Valid()
      reads this, store, env
    {
      store.Valid() && env.application in env.configs
    }

    ghost function CurrentMode(): Mode
      reads store
      requires store.Valid()
    {
      ModeOf(store.prefs, store.defaultLocale)
    }

    /** While following, the stored locale is the device locale last observed. */
    ghost predicate TracksDevice()
      reads this, store
      requires store.Valid()
    {
      store.Following() ==> store.ActiveLocale() == deviceLocale
    }

    /** setLocale(context, language, country, variant): the same as setLocale with the locale
        built from the three codes. */
    method SetLocaleFromCodes(context: Context, language: string, country: string := "", variant: string := "")
      requires context in env.configs && env.application in env.configs
      modifies this`log, store`prefs, env`processDefault, env`configs
      ensures Valid() && TracksDevice()
      ensures CurrentMode() == Fixed(Locale(language, country, variant))
      ensures store.prefs == old(store.prefs)[FollowSystemLocaleKey := PrefBool(false)]
                                             [LanguageKey := PrefString(Encode(Locale(language, country, variant)))]
      ensures log == old(log) + [SetFollow(false), Persist(Locale(language, country, variant)),
                                 Apply(context, Locale(language, country, variant))]
      ensures env.processDefault == Locale(language, country, variant)
      ensures env.configs == UpdatedConfigs(old(env.configs), context, env.application,
                                            Locale(language, country, variant), env.systemLocales)
    {
      SetLocale(context, Locale(language, country, variant));
    }

    /** Fixes the locale: clears the follow flag, persists `locale`, then applies it. Nothing is
        read, so whatever the file held before is overwritten. */
    method SetLocale(context: Context, locale: Locale)
      requires context in env.configs && env.application in env.configs
      modifies this`log, store`prefs, env`processDefault, env`configs
      ensures Valid() && TracksDevice()
      ensures CurrentMode() == Fixed(locale)
      ensures store.prefs == old(store.prefs)[FollowSystemLocaleKey := PrefBool(false)]
                                             [LanguageKey := PrefString(Encode(locale))]
      ensures log == old(log) + [SetFollow(false), Persist(locale), Apply(context, locale)]
      ensures env.processDefault == locale
      ensures env.configs == UpdatedConfigs(old(env.configs), context, env.application, locale, env.systemLocales)
    {
      store.SetFollowSystemLocale(false);
      log := log + [SetFollow(false)];
      PersistAndApply(context, locale);
    }

    /** The stored locale, or the exception reading it raises; on a readable file it is the
        locale of the current mode. */
    method GetLocale() returns (r: Result<Locale, ReadError>)
      ensures r == ReadLocale(store.prefs, store.defaultLocale)
      ensures r.Success? && ReadFollow(store.prefs).Success? ==> r.value == CurrentMode().locale
    {
      r := store.GetLocale();
    }

    /** The active language, with deprecated codes replaced by their current ones. */
    method GetLanguage() returns (r: Result<string, ReadError>)
      ensures r.Failure? <==> ReadLocale(store.prefs, store.defaultLocale).Failure?
      ensures r.Failure? ==> r.error == ReadLocale(store.prefs, store.defaultLocale).error
      ensures r.Success? ==> r.value == VerifyLanguage(store.ActiveLocale().language)
      ensures r.Success? ==> r.value !in DeprecatedLanguages
    {
      var locale :- GetLocale();
      r := Success(VerifyLanguage(locale.language));
    }

    /** Follows the device: sets the follow flag, persists the device locale last observed
        (not the previously fixed one), then applies it. Nothing is read. */
    method SetFollowDeviceLocale(context: Context)
      requires context in env.configs && env.application in env.configs
      modifies this`log, store`prefs, env`processDefault, env`configs
      ensures Valid() && TracksDevice()
      ensures CurrentMode() == Following(deviceLocale)
      ensures store.prefs == old(store.prefs)[FollowSystemLocaleKey := PrefBool(true)]
                                             [LanguageKey := PrefString(Encode(deviceLocale))]
      ensures log == old(log) + [SetFollow(true), Persist(deviceLocale), Apply(context, deviceLocale)]
      ensures env.processDefault == deviceLocale
      ensures env.configs == UpdatedConfigs(old(env.configs), context, env.application, deviceLocale, env.systemLocales)
    {
      store.SetFollowSystemLocale(true);
      log := log + [SetFollow(true)];
      PersistAndApply(context, deviceLocale);
    }

    /** The follow flag, or the exception reading it raises; on a readable file it is true
        exactly in the Following mode. */
    method IsFollowingDeviceLocale() returns (r: Result<bool, ReadError>)
      ensures r == ReadFollow(store.prefs)
      ensures r.Success? && store.Valid() ==> (r.value <==> CurrentMode().Following?)
    {
      r := store.IsFollowingSystemLocale();
    }

    /** Start-up: registers the lifecycle callbacks, persists the device locale when following,
        then persists the stored locale again and applies it to the application. A failing read
        escapes after the callbacks are registered, with nothing persisted or applied. */
    method SetUp() returns (r: Result<Locale, ReadError>)
      requires env.application in env.configs
      modifies this`log, store`prefs, env`processDefault, env`configs
      ensures r == Resolve(old(store.prefs), store.defaultLocale, deviceLocale)
      ensures r.Failure? ==>
        && store.prefs == old(store.prefs)
        && env.processDefault == old(env.processDefault) && env.configs == old(env.configs)
        && log == old(log) + [RegisterActivityCallbacks, RegisterComponentCallbacks]
      ensures r.Success? ==>
        && Valid() && TracksDevice()
        && store.ActiveLocale() == r.value
        && ReadFollow(store.prefs) == old(ReadFollow(store.prefs))
        && store.prefs == old(store.prefs)[LanguageKey := PrefString(Encode(r.value))]
        && log == old(log) + SetUpLog(store.Following(), deviceLocale, r.value, env.application)
        && env.processDefault == r.value
        && env.configs == UpdatedConfigs(old(env.configs), env.application, env.application,
                                         r.value, env.systemLocales)
      ensures old(store.Valid()) ==> r.Success? && CurrentMode() == OnDeviceLocale(old(CurrentMode()), deviceLocale)
    {
      log := log + [RegisterActivityCallbacks, RegisterComponentCallbacks];
      var following :- store.IsFollowingSystemLocale();
      if following {
        store.PersistLocale(deviceLocale);
        log := log + [Persist(deviceLocale)];
      }
      var stored :- store.GetLocale();
      PersistAndApply(env.application, stored);
      r := Success(stored);
    }

    /** Persists `locale`, then applies it; the flag is neither read nor changed. */
    method PersistAndApply(context: Context, locale: Locale)
      requires context in env.configs && env.application in env.configs
      modifies this`log, store`prefs, env`processDefault, env`configs
      ensures store.prefs == old(store.prefs)[LanguageKey := PrefString(Encode(locale))]
      ensures ReadLocale(store.prefs, store.defaultLocale) == Success(locale)
      ensures ReadFollow(store.prefs) == old(ReadFollow(store.prefs))
      ensures log == old(log) + [Persist(locale), Apply(context, locale)]
      ensures env.processDefault == locale
      ensures env.configs == UpdatedConfigs(old(env.configs), context, env.application, locale, env.systemLocales)
    {
      store.PersistLocale(locale);
      log := log + [Persist(locale)];
      Update(context, locale);
    }

    /** Applies the stored locale to a context; the activity callbacks call it when an
        activity is created. A failing read escapes before anything is applied. */
    method ApplyLocale(context: Context) returns (r: Result<Locale, ReadError>)
      requires context in env.configs && env.application in env.configs
      modifies this`log, env`processDefault, env`configs
      ensures r == ReadLocale(store.prefs, store.defaultLocale)
      ensures r.Failure? ==>
        log == old(log) && env.processDefault == old(env.processDefault) && env.configs == old(env.configs)
      ensures r.Success? ==>
        && log == old(log) + [Apply(context, r.value)]
        && env.processDefault == r.value
        && env.configs == UpdatedConfigs(old(env.configs), context, env.application, r.value, env.systemLocales)
    {
      var stored :- store.GetLocale();
      Update(context, stored);
      r := Success(stored);
    }

    /** A configuration change: the new device locale is remembered; when following it is
        persisted; the stored locale is then applied, so a fixed locale is re-asserted. */
    method OnConfigurationChanged(context: Context, configLocale: Locale) returns (r: Result<Locale, ReadError>)
      requires context in env.configs && env.application in env.configs
      modifies this`deviceLocale, this`log, store`prefs, env`processDefault, env`configs
      ensures deviceLocale == configLocale
      ensures r == Resolve(old(store.prefs), store.defaultLocale, configLocale)
      ensures r.Failure? ==>
        && store.prefs == old(store.prefs) && log == old(log)
        && env.processDefault == old(env.processDefault) && env.configs == old(env.configs)
      ensures r.Success? ==>
        && Valid() && TracksDevice()
        && store.ActiveLocale() == r.value
        && ReadFollow(store.prefs) == old(ReadFollow(store.prefs))
        && env.processDefault == r.value
        && env.configs == UpdatedConfigs(old(env.configs), context, env.application, r.value, env.systemLocales)
      ensures old(ReadFollow(store.prefs)) == Success(true) ==>
        && store.prefs == old(store.prefs)[LanguageKey := PrefString(Encode(configLocale))]
        && log == old(log) + [Persist(configLocale), Apply(context, configLocale)]
      ensures old(ReadFollow(store.prefs)) == Success(false) ==>
        && store.prefs == old(store.prefs)
        && (r.Success? ==> log == old(log) + [Apply(context, r.value)])
      ensures old(store.Valid()) ==> r.Success? && CurrentMode() == OnDeviceLocale(old(CurrentMode()), configLocale)
    {
      deviceLocale := configLocale;
      var following :- store.IsFollowingSystemLocale();
      if following {
        store.PersistLocale(deviceLocale);
        log := log + [Persist(deviceLocale)];
      }
      r := ApplyLocale(context);
    }

    /** Applies a locale to a context and, when it is a different context, to the application. */
    method Update(context: Context, locale: Locale)
      requires context in env.configs && env.application in env.configs
      modifies this`log, env`processDefault, env`configs
      ensures log == old(log) + [Apply(context, locale)]
      ensures env.processDefault == locale
      ensures env.configs == UpdatedConfigs(old(env.configs), context, env.application, locale, env.systemLocales)
    {
      log := log + [Apply(context, locale)];
      UpdateResources(context, locale);
      var appContext := env.application;
      if appContext != context {
        UpdateResources(appContext, locale);
      }
    }

    /** Sets the process default locale, then reconfigures the context unless its
        configuration already reports the locale. */
    method UpdateResources(context: Context, locale: Locale)
      requires context in env.configs
      modifies env`processDefault, env`configs
      ensures env.processDefault == locale
      ensures env.configs == Reconfigured(old(env.configs), context, locale, env.systemLocales)
    {
      env.processDefault := locale;
      var current := CurrentLocale(env.configs[context]);
      if current == Some(locale) {
        return;
      }
      var locales := SetLocaleForApi24(locale, env.systemLocales);
      env.configs := env.configs[context := locales];
    }

    /** The configuration's new locale list: `locale` first, then the device's locales that
        are not already in the list, in their order. */
    method SetLocaleForApi24(locale: Locale, defaults: seq<Locale>) returns (locales: seq<Locale>)
      ensures locales == Dedup([locale] + defaults)
      ensures |locales| > 0 && locales[0] == locale
      ensures KeepsFirstOccurrences([locale] + defaults, locales)
    {
      locales := [locale];
      var seen := {locale};
      assert [locale] == Dedup([locale] + defaults[..0]) by {
        assert ([locale] + defaults[..0])[..0] == [];
      }
      var i := 0;
      while i < |defaults|
        invariant 0 <= i <= |defaults|
        invariant locales == Dedup([locale] + defaults[..i])
        invariant forall x :: x in seen <==> x in locales
      {
        var s := [locale] + defaults[..i + 1];
        assert s[..|s| - 1] == [locale] + defaults[..i] && s[|s| - 1] == defaults[i];
        if defaults[i] !in seen {
          locales := locales + [defaults[i]];
          seen := seen + {defaults[i]};
        }
        i := i + 1;
      }
      assert defaults[..i] == defaults;
      DedupHead([locale] + defaults);
      DedupKeepsFirstOccurrences([locale] + defaults);
    }

    /** Re-reads the activity's label so its title is resolved in the new locale; a label of 0
        or a failed lookup leaves the title as it was. */
    method ResetActivityTitle(activity: Context)
      modifies env`titles
      ensures env.titles == if activity in env.labels && env.labels[activity] != 0
                            then old(env.titles)[activity := env.labels[activity]]
                            else old(env.titles)
    {
      if activity in env.labels {
        var labelRes := env.labels[activity];
        if labelRes != 0 {
          env.titles := env.titles[activity := labelRes];
        }
      }
    }
  }

  /** The companion object: the process-wide instance slot and the init entry points. */
  class LingverCompanion {
    /** The process default locale when the library is loaded. */
    const defaultLocale: Locale
    var instance: Lingver?

    /** Loading the companion captures the process default locale of `env`. */
    constructor (env: Environment)
      ensures defaultLocale == env.processDefault && instance == null
    {
      defaultLocale := env.processDefault;
      instance := null;
    }

    method GetInstance() returns (r: Result<Lingver, LingverError>)
      ensures instance == null ==> r == Failure(IllegalState(NotInitializedMessage))
      ensures instance != null ==> r == Success(instance)
    {
      if instance == null {
        r := Failure(IllegalState(NotInitializedMessage));
      } else {
        r := Success(instance);
      }
    }

    /** Creates the instance with `store`, sets it up, and only then fills the slot. Fails,
        without touching the store, when the slot is already filled; when setUp fails the slot
        stays empty. */
    method Init(env: Environment, store: PreferenceLocaleStore) returns (r: Result<Lingver, LingverError>)
      requires instance == null ==> env.application in env.configs
      modifies this`instance, store`prefs, env`processDefault, env`configs
      ensures old(instance) != null ==>
        && r == Failure(IllegalState(AlreadyInitializedMessage)) && instance == old(instance)
        && store.prefs == old(store.prefs)
        && env.processDefault == old(env.processDefault) && env.configs == old(env.configs)
      ensures old(instance) == null && Resolve(old(store.prefs), store.defaultLocale, defaultLocale).Failure? ==>
        && r == Failure(StoreFailure(Resolve(old(store.prefs), store.defaultLocale, defaultLocale).error))
        && instance == null && store.prefs == old(store.prefs)
        && env.processDefault == old(env.processDefault) && env.configs == old(env.configs)
      ensures old(instance) == null && Resolve(old(store.prefs), store.defaultLocale, defaultLocale).Success? ==>
        && r.Success? && fresh(r.value) && instance == r.value
        && r.value.store == store && r.value.env == env && r.value.deviceLocale == defaultLocale
        && r.value.Valid() && r.value.TracksDevice()
        && store.ActiveLocale() == Resolve(old(store.prefs), store.defaultLocale, defaultLocale).value
        && r.value.log == SetUpLog(store.Following(), defaultLocale, store.ActiveLocale(), env.application)
        && env.processDefault == store.ActiveLocale()
        && env.configs == UpdatedConfigs(old(env.configs), env.application, env.application,
                                         store.ActiveLocale(), env.systemLocales)
      ensures old(instance) == null && old(store.Valid()) ==>
        r.Success? && r.value.CurrentMode() == OnDeviceLocale(old(ModeOf(store.prefs, store.defaultLocale)), defaultLocale)
    {
      if instance != null {
        r := Failure(IllegalState(AlreadyInitializedMessage));
        return;
      }
      var lingver := new Lingver(store, env, defaultLocale);
      var setUp := lingver.SetUp();
      if setUp.Failure? {
        r := Failure(StoreFailure(setUp.error));
        return;
      }
      instance := lingver;
      r := Success(lingver);
    }

    /** init(application, defaultLocale): the default store over the saved preferences, created
        before the slot is checked. */
    method InitWithLocale(env: Environment, locale: Locale, saved: Prefs) returns (r: Result<Lingver, LingverError>)
      requires instance == null ==> env.application in env.configs
      modifies this`instance, env`processDefault, env`configs
      ensures old(instance) != null ==>
        && r == Failure(IllegalState(AlreadyInitializedMessage)) && instance == old(instance)
        && env.processDefault == old(env.processDefault) && env.configs == old(env.configs)
      ensures old(instance) == null && Resolve(saved, locale, defaultLocale).Failure? ==>
        && r == Failure(StoreFailure(Resolve(saved, locale, defaultLocale).error)) && instance == null
        && env.processDefault == old(env.processDefault) && env.configs == old(env.configs)
      ensures old(instance) == null && Resolve(saved, locale, defaultLocale).Success? ==>
        && r.Success? && fresh(r.value) && fresh(r.value.store) && instance == r.value
        && r.value.store.defaultLocale == locale && r.value.store.preferenceName == DefaultPreferenceName
        && r.value.env == env && r.value.deviceLocale == defaultLocale
        && r.value.Valid() && r.value.TracksDevice()
        && r.value.store.ActiveLocale() == Resolve(saved, locale, defaultLocale).value
        && r.value.log == SetUpLog(r.value.store.Following(), defaultLocale, r.value.store.ActiveLocale(), env.application)
        && env.processDefault == r.value.store.ActiveLocale()
        && env.configs == UpdatedConfigs(old(env.configs), env.application, env.application,
                                         r.value.store.ActiveLocale(), env.systemLocales)
      ensures old(instance) == null && ReadLocale(saved, locale).Success? && ReadFollow(saved).Success? ==>
        r.Success? && r.value.CurrentMode() == OnDeviceLocale(ModeOf(saved, locale), defaultLocale)
    {
      var store := new PreferenceLocaleStore(locale, saved);
      r := Init(env, store);
    }

    /** init(application, defaultLanguage): the default locale built from a language code. */
    method InitWithLanguage(env: Environment, defaultLanguage: string, saved: Prefs)
      returns (r: Result<Lingver, LingverError>)
      requires instance == null ==> env.application in env.configs
      modifies this`instance, env`processDefault, env`configs
      ensures old(instance) != null ==>
        && r == Failure(IllegalState(AlreadyInitializedMessage)) && instance == old(instance)
        && env.processDefault == old(env.processDefault) && env.configs == old(env.configs)
      ensures old(instance) == null && Resolve(saved, Locale(defaultLanguage, "", ""), defaultLocale).Failure? ==>
        && r == Failure(StoreFailure(Resolve(saved, Locale(defaultLanguage, "", ""), defaultLocale).error))
        && instance == null
      ensures old(instance) == null && Resolve(saved, Locale(defaultLanguage, "", ""), defaultLocale).Success? ==>
        && r.Success? && fresh(r.value) && instance == r.value
        && r.value.store.defaultLocale == Locale(defaultLanguage, "", "")
        && r.value.Valid() && r.value.TracksDevice()
        && r.value.store.ActiveLocale() == Resolve(saved, Locale(defaultLanguage, "", ""), defaultLocale).value
        && r.value.log == SetUpLog(r.value.store.Following(), defaultLocale, r.value.store.ActiveLocale(), env.application)
        && env.processDefault == r.value.store.ActiveLocale()
        && env.configs == UpdatedConfigs(old(env.configs), env.application, env.application,
                                         r.value.store.ActiveLocale(), env.systemLocales)
    {
      r := InitWithLocale(env, Locale(defaultLanguage, "", ""), saved);
    }

    /** init(application): the default store with the current process default locale. */
    method InitWithProcessDefault(env: Environment, saved: Prefs) returns (r: Result<Lingver, LingverError>)
      requires instance == null ==> env.application in env.configs
      modifies this`instance, env`processDefault, env`configs
      ensures old(instance) != null ==>
        && r == Failure(IllegalState(AlreadyInitializedMessage)) && instance == old(instance)
        && env.processDefault == old(env.processDefault) && env.configs == old(env.configs)
      ensures old(instance) == null && Resolve(saved, old(env.processDefault), defaultLocale).Failure? ==>
        && r == Failure(StoreFailure(Resolve(saved, old(env.processDefault), defaultLocale).error))
        && instance == null
      ensures old(instance) == null && Resolve(saved, old(env.processDefault), defaultLocale).Success? ==>
        && r.Success? && fresh(r.value) && instance == r.value
        && r.value.store.defaultLocale == old(env.processDefault)
        && r.value.Valid() && r.value.TracksDevice()
        && r.value.store.ActiveLocale() == Resolve(saved, old(env.processDefault), defaultLocale).value
        && r.value.log == SetUpLog(r.value.store.Following(), defaultLocale, r.value.store.ActiveLocale(), env.application)
        && env.processDefault == r.value.store.ActiveLocale()
        && env.configs == UpdatedConfigs(old(env.configs), env.application, env.application,
                                         r.value.store.ActiveLocale(), env.systemLocales)
    {
      r := InitWithLocale(env, env.processDefault, saved);
    }
  }
}

=== FILE: LocaleJson.dfy ===
/** The JSON record PreferenceLocaleStore writes for a locale:
    {"language":"…","country":"…","variant":"…"}. */
module LocaleJson {
  import opened Wrappers
  import opened Locales

  const LanguageJsonKey := "language"
  const CountryJsonKey := "country"
  const VariantJsonKey := "variant"

  const Backspace: char := '\U{0008}'
  const FormFeed: char := '\U{000C}'

  /** How one character of a string value is written inside a JSON string. */
  function EscapeChar(c: char): string
  {
    if c == '\"' then "\\\""
    else if c == '\\' then "\\\\"
    else if c == Backspace then "\\b"
    else if c == '\t' then "\\t"
    else if c == '\n' then "\\n"
    else if c == FormFeed then "\\f"
    else if c == '\r' then "\\r"
    else [c]
  }

  function Escape(s: string): string
  {
    if s == [] then [] else EscapeChar(s[0]) + Escape(s[1..])
  }

  /** The character that the escape sequence `\e` stands for, if `e` names one. */
  function Unescape(e: char): Option<char>
  {
    if e == '\"' || e == '\\' || e == '/' then Some(e)
    else if e == 'b' then Some(Backspace)
    else if e == 't' then Some('\t')
    else if e == 'n' then Some('\n')
    else if e == 'f' then Some(FormFeed)
    else if e == 'r' then Some('\r')
    else None
  }

  /** Reads the body of a JSON string up to its closing quote: the value and the text after
      the quote. A missing closing quote is an unterminated string; the model also rejects a
      raw line break, which the encoder never writes. */
  function ReadString(t: string): Option<(string, string)>
    decreases |t|
  {
    if t == [] then None
    else if t[0] == '\"' then Some(([], t[1..]))
    else if t[0] == '\n' || t[0] == '\r' then None
    else if t[0] == '\\' then
      if |t| < 2 then None
      else
        var c :- Unescape(t[1]);
        var p :- ReadString(t[2..]);
        Some(([c] + p.0, p.1))
    else
      var p :- ReadString(t[1..]);
      Some(([t[0]] + p.0, p.1))
  }

  /** The text that opens the member `key` up to the opening quote of its value. */
  function MemberHead(key: string): string
  {
    "\"" + key + "\":\""
  }

  function Member(key: string, value: string): string
  {
    MemberHead(key) + Escape(value) + "\""
  }

  /** The record JSONObject.toString writes: the three members, in insertion order, inside
      braces. */
  function Encode(l: Locale): string
  {
    "{" + Member(LanguageJsonKey, l.language) + "," + Member(CountryJsonKey, l.country)
      + "," + Member(VariantJsonKey, l.variant) + "}"
  }

  function Expect(prefix: string, t: string): Option<string>
  {
    if prefix <= t then Some(t[|prefix|..]) else None
  }

  function ReadMember(key: string, t: string): Option<(string, string)>
  {
    var body :- Expect(MemberHead(key), t);
    ReadString(body)
  }

  /** Reads a record back; None stands for the JSONException a malformed record raises. */
  function Decode(json: string): Option<Locale>
  {
    var t0 :- Expect("{", json);
    var language :- ReadMember(LanguageJsonKey, t0);
    var t1 :- Expect(",", language.1);
    var rest :- DecodeCountryVariant(t1);
    Some(Locale(language.0, rest.0, rest.1))
  }

  /** The country and variant members and the closing brace. */
  function DecodeCountryVariant(t: string): Option<(string, string)>
  {
    var country :- ReadMember(CountryJsonKey, t);
    var t2 :- Expect(",", country.1);
    var variant :- ReadMember(VariantJsonKey, t2);
    if variant.1 == "}" then Some((country.0, variant.0)) else None
  }

  /** Every escape written by EscapeChar is read back as the character it stands for. */
  lemma EscapeCharReadsBack(c: char)
    ensures EscapeChar(c) == [c] ==> c != '\"' && c != '\\' && c != '\n' && c != '\r'
    ensures EscapeChar(c) != [c] ==>
      |EscapeChar(c)| == 2 && EscapeChar(c)[0] == '\\' && Unescape(EscapeChar(c)[1]) == Some(c)
  {
  }

  lemma {:induction false} ReadStringEscape(s: string, rest: string)
    ensures ReadString(Escape(s) + "\"" + rest) == Some((s, rest))
  {
    var t := Escape(s) + "\"" + rest;
    if s == [] {
      assert t == "\"" + rest;
    } else {
      var tail := Escape(s[1..]) + "\"" + rest;
      ReadStringEscape(s[1..], rest);
      assert t == EscapeChar(s[0]) + tail;
      EscapeCharReadsBack(s[0]);
      if EscapeChar(s[0]) == [s[0]] {
        assert t[0] == s[0] && t[1..] == tail;
      } else {
        assert t[0] == '\\' && t[2..] == tail;
      }
      assert [s[0]] + s[1..] == s;
    }
  }

  lemma ReadMemberOf(key: string, value: string, rest: string)
    ensures ReadMember(key, Member(key, value) + rest) == Some((value, rest))
  {
    var t := Member(key, value) + rest;
    var body := Escape(value) + "\"" + rest;
    assert t == MemberHead(key) + body;
    assert MemberHead(key) <= t;
    assert t[|MemberHead(key)|..] == body;
    ReadStringEscape(value, rest);
  }

  lemma ExpectOf(prefix: string, rest: string)
    ensures Expect(prefix, prefix + rest) == Some(rest)
  {
    assert prefix <= prefix + rest;
    assert (prefix + rest)[|prefix|..] == rest;
  }

  lemma DecodeCountryVariantOf(country: string, variant: string)
    ensures DecodeCountryVariant(Member(CountryJsonKey, country) + "," + Member(VariantJsonKey, variant) + "}")
      == Some((country, variant))
  {
    var m2 := Member(CountryJsonKey, country);
    var m3 := Member(VariantJsonKey, variant);
    var r2 := "," + m3 + "}";
    assert m2 + "," + m3 + "}" == m2 + r2;
    ReadMemberOf(CountryJsonKey, country, r2);
    assert r2 == "," + (m3 + "}");
    ExpectOf(",", m3 + "}");
    ReadMemberOf(VariantJsonKey, variant, "}");
  }

  /** Round trip: a persisted record reads back as the same language, country and variant. */
  lemma DecodeEncode(l: Locale)
    ensures Decode(Encode(l)) == Some(l)
  {
    var m1 := Member(LanguageJsonKey, l.language);
    var rest := Member(CountryJsonKey, l.country) + "," + Member(VariantJsonKey, l.variant) + "}";
    var r1 := "," + rest;
    assert Expect("{", Encode(l)) == Some(m1 + r1) by {
      assert Encode(l) == "{" + (m1 + r1);
      ExpectOf("{", m1 + r1);
    }
    assert ReadMember(LanguageJsonKey, m1 + r1) == Some((l.language, r1)) by {
      ReadMemberOf(LanguageJsonKey, l.language, r1);
    }
    assert Expect(",", r1) == Some(rest) by {
      ExpectOf(",", rest);
    }
    assert DecodeCountryVariant(rest) == Some((l.country, l.variant)) by {
      DecodeCountryVariantOf(l.country, l.variant);
    }
  }

  /** An encoded record opens with a brace, so it is never blank. */
  lemma EncodeStartsWithBrace(l: Locale)
    ensures |Encode(l)| > 0 && Encode(l)[0] == '{'
  {
  }

  /** `u` is what is left of `t` after a prefix of it is consumed. */
  ghost predicate SuffixOf(u: string, t: string)
  {
    |u| <= |t| && t[|t| - |u|..] == u
  }

  /** The opening of member `key` appears somewhere in `json`. */
  ghost predicate Mentions(json: string, key: string)
  {
    exists i :: 0 <= i <= |json| && MemberHead(key) <= json[i..]
  }

  lemma SuffixOfTrans(u: string, v: string, w: string)
    requires SuffixOf(u, v) && SuffixOf(v, w)
    ensures SuffixOf(u, w)
  {
    assert w[|w| - |v|..][|v| - |u|..] == w[|w| - |u|..];
  }

  /** Reading a string consumes a prefix of its input. */
  lemma {:induction false} ReadStringLeavesSuffix(t: string)
    ensures ReadString(t).Some? ==> SuffixOf(ReadString(t).value.1, t)
    decreases |t|
  {
    if t == [] || t[0] == '\"' || t[0] == '\n' || t[0] == '\r' {
    } else if t[0] == '\\' {
      if |t| >= 2 && ReadString(t).Some? {
        ReadStringLeavesSuffix(t[2..]);
        SuffixOfTrans(ReadString(t).value.1, t[2..], t);
      }
    } else if ReadString(t).Some? {
      ReadStringLeavesSuffix(t[1..]);
      SuffixOfTrans(ReadString(t).value.1, t[1..], t);
    }
  }

  /** Reading a member needs its opening at the front and consumes a prefix of the input. */
  lemma ReadMemberLeavesSuffix(key: string, t: string)
    ensures ReadMember(key, t).Some? ==>
      MemberHead(key) <= t && SuffixOf(ReadMember(key, t).value.1, t)
  {
    if ReadMember(key, t).Some? {
      var body := t[|MemberHead(key)|..];
      ReadStringLeavesSuffix(body);
      SuffixOfTrans(ReadMember(key, t).value.1, body, t);
    }
  }

  /** The opening of `key` at the front of a suffix of `json` is a mention of it. */
  lemma MentionAt(json: string, t: string, key: string)
    requires SuffixOf(t, json) && MemberHead(key) <= t
    ensures Mentions(json, key)
  {
    assert MemberHead(key) <= json[|json| - |t|..];
  }

  /** Only an object text reads back, and a text missing any of the three members is
      malformed: the JSONException that getString raises for a missing key. */
  lemma MalformedRecordsRejected(json: string)
    ensures Decode(json).Some? ==> |json| > 0 && json[0] == '{'
    ensures !Mentions(json, LanguageJsonKey) ==> Decode(json) == None
    ensures !Mentions(json, CountryJsonKey) ==> Decode(json) == None
    ensures !Mentions(json, VariantJsonKey) ==> Decode(json) == None
  {
    if Decode(json).Some? {
      var t0 := json[1..];
      assert SuffixOf(t0, json);
      ReadMemberLeavesSuffix(LanguageJsonKey, t0);
      var language := ReadMember(LanguageJsonKey, t0).value;
      MentionAt(json, t0, LanguageJsonKey);
      SuffixOfTrans(language.1, t0, json);
      var t1 := language.1[1..];
      assert SuffixOf(t1, language.1);
      SuffixOfTrans(t1, language.1, json);
      ReadMemberLeavesSuffix(CountryJsonKey, t1);
      var country := ReadMember(CountryJsonKey, t1).value;
      MentionAt(json, t1, CountryJsonKey);
      SuffixOfTrans(country.1, t1, json);
      var t2 := country.1[1..];
      assert SuffixOf(t2, country.1);
      SuffixOfTrans(t2, country.1, json);
      assert ReadMember(VariantJsonKey, t2).Some?;
      ReadMemberLeavesSuffix(VariantJsonKey, t2);
      MentionAt(json, t2, VariantJsonKey);
    }
  }
}

=== FILE: LocaleLists.dfy ===
/** Ordered sets of locales, as a LinkedHashSet builds them: an element is kept at its
    first insertion and later insertions of an equal element are ignored. */
module LocaleLists {
  import opened Locales

  /** The position of the first occurrence of `x` in `s`. */
  function FirstIndex(s: seq<Locale>, x: Locale): (k: nat)
    requires x in s
    ensures k < |s| && s[k] == x && x !in s[..k]
  {
    if s[0] == x then 0
    else
      var k := FirstIndex(s[1..], x);
      assert s[1..][..k] == s[1..k + 1];
      1 + k
  }

  /** The elements of `s` in insertion order without repeats: adding the last element of `s`
      to the ordered set built from the others. */
  function Dedup(s: seq<Locale>): seq<Locale>
  {
    if s == [] then []
    else
      var p := Dedup(s[..|s| - 1]);
      if s[|s| - 1] in p then p else p + [s[|s| - 1]]
  }

  /** `r` holds exactly the elements of `s`, once each, ordered by first occurrence in `s`. */
  ghost predicate KeepsFirstOccurrences(s: seq<Locale>, r: seq<Locale>)
  {
    && (forall x :: x in r <==> x in s)
    && (forall i, j :: 0 <= i < j < |r| ==> r[i] != r[j])
    && (forall i, j :: 0 <= i < j < |r| ==> r[i] in s && r[j] in s && FirstIndex(s, r[i]) < FirstIndex(s, r[j]))
  }

  lemma FirstIndexUnique(s: seq<Locale>, x: Locale, k: nat)
    requires k < |s| && s[k] == x && x !in s[..k]
    ensures FirstIndex(s, x) == k
  {
  }

  /** Appending to a sequence does not move the first occurrence of an element already in it. */
  lemma FirstIndexAppend(s: seq<Locale>, t: seq<Locale>, x: Locale)
    requires x in s
    ensures FirstIndex(s + t, x) == FirstIndex(s, x)
  {
    var k := FirstIndex(s, x);
    assert (s + t)[..k] == s[..k];
    FirstIndexUnique(s + t, x, k);
  }

  lemma {:induction false} DedupKeepsFirstOccurrences(s: seq<Locale>)
    ensures KeepsFirstOccurrences(s, Dedup(s))
  {
    if s != [] {
      var n := |s|;
      var init, y := s[..n - 1], s[n - 1];
      var p := Dedup(init);
      DedupKeepsFirstOccurrences(init);
      assert s == init + [y];
      var r := Dedup(s);
      forall x
        ensures x in r <==> x in s
      {
        assert x in s <==> x in init || x == y;
      }
      forall i | 0 <= i < |p|
        ensures p[i] in s && FirstIndex(s, p[i]) == FirstIndex(init, p[i])
      {
        FirstIndexAppend(init, [y], p[i]);
      }
      if y !in p {
        assert r == p + [y];
        assert y !in init;
        FirstIndexUnique(s, y, n - 1);
        forall i, j | 0 <= i < j < |r|
          ensures r[i] != r[j]
          ensures FirstIndex(s, r[i]) < FirstIndex(s, r[j])
        {
          if j == |p| {
            assert r[i] == p[i] && r[j] == y;
          }
        }
      }
    }
  }

  /** The first element inserted stays first. */
  lemma {:induction false} DedupHead(s: seq<Locale>)
    requires |s| > 0
    ensures |Dedup(s)| > 0 && Dedup(s)[0] == s[0]
  {
    if |s| > 1 {
      var init := s[..|s| - 1];
      DedupHead(init);
      assert init[0] == s[0];
    } else {
      assert s[..0] == [];
    }
  }
}

=== FILE: Locales.dfy ===
/** The locale value shared by every component of the library. */
module Locales {

  /** A java.util.Locale reduced to the three fields the library reads and writes;
      two locales are equal exactly when all three fields are equal. */
  datatype Locale = Locale(language: string, country: string, variant: string)

  /** The deprecated ISO 639 language codes and the codes that replaced them. */
  const DeprecatedLanguages: map<string, string> := map["iw" := "he", "ji" := "yi", "in" := "id"]

  /** Replaces a deprecated language code by its current one; every other code passes through. */
  function VerifyLanguage(language: string): (r: string)
    ensures language in DeprecatedLanguages ==> r == DeprecatedLanguages[language]
    ensures language !in DeprecatedLanguages ==> r == language
    ensures r !in DeprecatedLanguages
  {
    if language == "iw" then "he"
    else if language == "ji" then "yi"
    else if language == "in" then "id"
    else language
  }
}

=== FILE: Platform.dfy ===
/** The parts of the Android platform the coordinator reads and writes: the process default
    locale, the locale list of each context's resource configuration, the device's locale
    list, and activity titles. */
module Platform {
  import opened Locales

  /** A context (the application or an activity), compared by identity. */
  datatype Context = Context(id: nat)

  class Environment {
    /** The application context; `context.applicationContext` of every context. */
    const application: Context
    /** The device's locale list, as LocaleList.getDefault() reports it. */
    const systemLocales: seq<Locale>
    /** The label resource id each activity declares in the manifest; an activity missing
        here makes the package manager lookup fail. */
    const labels: map<Context, int>
    /** The process default locale, java.util.Locale.getDefault(). */
    var processDefault: Locale
    /** The locale list of each context's resource configuration. */
    var configs: map<Context, seq<Locale>>
    /** The title resource id last set on each activity. */
    var titles: map<Context, int>

    constructor (application: Context, systemLocales: seq<Locale>, labels: map<Context, int>,
                 processDefault: Locale, configs: map<Context, seq<Locale>>, titles: map<Context, int>)
      ensures this.application == application && this.systemLocales == systemLocales
      ensures this.labels == labels && this.processDefault == processDefault
      ensures this.configs == configs && this.titles == titles
    {
      this.application := application;
      this.systemLocales := systemLocales;
      this.labels := labels;
      this.processDefault := processDefault;
      this.configs := configs;
      this.titles := titles;
    }
  }
}

=== FILE: Scenarios.dfy ===
/** Client scenarios: what a caller of the coordinator can conclude from its contracts alone. */
module Scenarios {
  import opened Wrappers
  import opened Locales
  import LocaleJson
  import opened Store
  import opened Platform
  import opened LingverCore

  /** Start-up while following: the device locale is persisted before the stored locale is
      persisted again and applied to the application. */
  method SetUpWhileFollowing(device: Locale, fallback: Locale)
  {
    var app := Context(0);
    var env := new Environment(app, [device], map[], fallback, map[app := [fallback]], map[]);
    var store := new PreferenceLocaleStore(fallback, map[FollowSystemLocaleKey := PrefBool(true)]);
    var lingver := new Lingver(store, env, device);
    var resolved := lingver.SetUp();
    assert resolved == Success(device) by {
      ResolveFailures(map[FollowSystemLocaleKey := PrefBool(true)], fallback, device);
    }
    var l := lingver.GetLocale();
    assert l == Success(device);
    assert env.processDefault == device;
    assert CurrentLocale(env.configs[app]) == Some(device);
    assert lingver.log == [RegisterActivityCallbacks, RegisterComponentCallbacks,
                           Persist(device), Persist(device), Apply(app, device)];
  }

  /** Start-up without the flag over a malformed record: the read fails after the callbacks
      are registered, and nothing is persisted or applied. */
  method SetUpOverMalformedRecord(device: Locale, fallback: Locale)
  {
    var app := Context(0);
    var saved := map[LanguageKey := PrefString("x")];
    var env := new Environment(app, [device], map[], fallback, map[app := [fallback]], map[]);
    var store := new PreferenceLocaleStore(fallback, saved);
    var lingver := new Lingver(store, env, device);
    assert ReadLocale(saved, fallback) == Failure(MalformedJson) by {
      assert !IsWhitespace("x"[0]);
      assert LocaleJson.Decode("x") == None;
    }
    var resolved := lingver.SetUp();
    assert resolved == Failure(MalformedJson);
    assert store.prefs == saved && env.processDefault == fallback;
    assert lingver.log == [RegisterActivityCallbacks, RegisterComponentCallbacks];
  }

  /** setLocale never reads the store, so it repairs a file holding a boolean record and a
      string flag. */
  method SetLocaleRepairsCorruptFile(device: Locale, l: Locale)
  {
    var app := Context(0);
    var env := new Environment(app, [device], map[], device, map[app := [device]], map[]);
    var store := new PreferenceLocaleStore(device,
      map[LanguageKey := PrefBool(true), FollowSystemLocaleKey := PrefString("x")]);
    var lingver := new Lingver(store, env, device);
    var before := lingver.IsFollowingDeviceLocale();
    assert before == Failure(ClassCast);
    lingver.SetLocale(app, l);
    var after := lingver.GetLocale();
    assert after == Success(l);
    var following := lingver.IsFollowingDeviceLocale();
    assert following == Success(false);
  }

  /** A fixed locale is re-asserted, not replaced, when the device locale changes. */
  method FixedLocaleSurvivesConfigurationChange(fixed: Locale, device: Locale, changed: Locale)
  {
    var app, activity := Context(0), Context(1);
    var env := new Environment(app, [device], map[], device, map[app := [device], activity := [device]], map[]);
    var store := new PreferenceLocaleStore(device, map[]);
    var lingver := new Lingver(store, env, device);
    var _ := lingver.SetUp();
    lingver.SetLocale(activity, fixed);
    var prefs := store.prefs;
    var applied := lingver.OnConfigurationChanged(app, changed);
    assert applied == Success(fixed);
    assert store.prefs == prefs;
    var l := lingver.GetLocale();
    assert l == Success(fixed);
    var following := lingver.IsFollowingDeviceLocale();
    assert following == Success(false);
    assert lingver.deviceLocale == changed;
    assert env.processDefault == fixed;
    assert CurrentLocale(env.configs[activity]) == Some(fixed);
  }

  /** A series of configuration changes moves the mode as Replay says; in a fixed mode the
      preference file is never written. */
  method ConfigurationChanges(lingver: Lingver, context: Context, changes: seq<Locale>)
    requires lingver.Valid() && context in lingver.env.configs
    modifies lingver`deviceLocale, lingver`log, lingver.store`prefs, lingver.env`processDefault, lingver.env`configs
    ensures lingver.Valid()
    ensures lingver.CurrentMode() == Replay(old(lingver.CurrentMode()), changes)
    ensures old(lingver.CurrentMode()).Fixed? ==> lingver.store.prefs == old(lingver.store.prefs)
  {
    var i := 0;
    while i < |changes|
      invariant 0 <= i <= |changes|
      invariant lingver.Valid() && context in lingver.env.configs
      invariant Replay(lingver.CurrentMode(), changes[i..]) == Replay(old(lingver.CurrentMode()), changes)
      invariant old(lingver.CurrentMode()).Fixed? ==>
        lingver.store.prefs == old(lingver.store.prefs) && lingver.CurrentMode() == old(lingver.CurrentMode())
    {
      var _ := lingver.OnConfigurationChanged(context, changes[i]);
      assert changes[i..][1..] == changes[i + 1..];
      i := i + 1;
    }
  }

  /** A fixed locale stays fixed through any number of configuration changes. */
  method FixedThroughManyChanges(lingver: Lingver, context: Context, l: Locale, changes: seq<Locale>)
    requires lingver.Valid() && context in lingver.env.configs && lingver.CurrentMode() == Fixed(l)
    modifies lingver`deviceLocale, lingver`log, lingver.store`prefs, lingver.env`processDefault, lingver.env`configs
  {
    var prefs := lingver.store.prefs;
    ConfigurationChanges(lingver, context, changes);
    FixedIgnoresDeviceChanges(l, changes);
    assert lingver.CurrentMode() == Fixed(l);
    assert lingver.store.prefs == prefs;
    var r := lingver.GetLocale();
    assert r == Success(l);
  }

  /** While following, a series of configuration changes leaves the last one's locale stored. */
  method FollowingThroughManyChanges(lingver: Lingver, context: Context, l: Locale, changes: seq<Locale>)
    requires lingver.Valid() && context in lingver.env.configs && lingver.CurrentMode() == Following(l)
    requires |changes| > 0
    modifies lingver`deviceLocale, lingver`log, lingver.store`prefs, lingver.env`processDefault, lingver.env`configs
  {
    ConfigurationChanges(lingver, context, changes);
    FollowingTracksLastChange(l, changes);
    assert lingver.CurrentMode() == Following(changes[|changes| - 1]);
    var r := lingver.GetLocale();
    assert r == Success(changes[|changes| - 1]);
    var following := lingver.IsFollowingDeviceLocale();
    assert following == Success(true);
  }

  /** Switching back to the device locale adopts the last configuration's locale. */
  method FollowAfterConfigurationChange(fixed: Locale, device: Locale, changed: Locale)
  {
    var app := Context(0);
    var env := new Environment(app, [device], map[], device, map[app := [device]], map[]);
    var store := new PreferenceLocaleStore(device, map[]);
    var lingver := new Lingver(store, env, device);
    var _ := lingver.SetUp();
    lingver.SetLocale(app, fixed);
    var _ := lingver.OnConfigurationChanged(app, changed);
    lingver.SetFollowDeviceLocale(app);
    var l := lingver.GetLocale();
    assert l == Success(changed);
    var following := lingver.IsFollowingDeviceLocale();
    assert following == Success(true);
  }

  /** Deprecated codes are reported by their current names; the store keeps the old code. */
  method DeprecatedLanguageIsReplaced()
  {
    var app := Context(0);
    var hebrew := Locale("iw", "IL", "");
    var env := new Environment(app, [], map[], hebrew, map[app := []], map[]);
    var store := new PreferenceLocaleStore(hebrew, map[]);
    var lingver := new Lingver(store, env, hebrew);
    lingver.SetLocale(app, hebrew);
    var language := lingver.GetLanguage();
    assert language == Success("he");
    var l := lingver.GetLocale();
    assert l.Success? && l.value.language == "iw";
  }

  /** The instance slot: lookup fails before init, a second init fails even over a corrupt
      file, lookup then returns the first instance. */
  method SingleInstance(device: Locale)
  {
    var app := Context(0);
    var env := new Environment(app, [device], map[], device, map[app := [device]], map[]);
    var companion := new LingverCompanion(env);
    var before := companion.GetInstance();
    assert before == Failure(IllegalState(NotInitializedMessage));
    var first := companion.InitWithLocale(env, device, map[]);
    assert first.Success?;
    var second := companion.InitWithLanguage(env, "en", map[LanguageKey := PrefBool(true)]);
    assert second == Failure(IllegalState(AlreadyInitializedMessage));
    var after := companion.GetInstance();
    assert after == first;
  }

  /** An init whose setUp fails leaves the slot empty, so a later init can succeed. */
  method FailedInitLeavesSlotEmpty(device: Locale)
  {
    var app := Context(0);
    var env := new Environment(app, [device], map[], device, map[app := [device]], map[]);
    var companion := new LingverCompanion(env);
    var first := companion.InitWithLocale(env, device, map[FollowSystemLocaleKey := PrefString("yes")]);
    assert first == Failure(StoreFailure(ClassCast));
    var lookup := companion.GetInstance();
    assert lookup == Failure(IllegalState(NotInitializedMessage));
    var second := companion.InitWithLocale(env, device, map[]);
    assert second.Success?;
  }

  /** A first init over an empty file applies the given default locale to the process and to
      the application. */
  method InitAppliesDefaultLocale(french: Locale, device: Locale)
  {
    var app := Context(0);
    var env := new Environment(app, [device], map[], device, map[app := [device]], map[]);
    var companion := new LingverCompanion(env);
    var r := companion.InitWithLocale(env, french, map[]);
    assert r.Success?;
    assert r.value.store.ActiveLocale() == french;
    assert env.processDefault == french;
    assert CurrentLocale(env.configs[app]) == Some(french);
  }
}

=== FILE: Store.dfy ===
/** PreferenceLocaleStore: the default locale store, one JSON record and one boolean
    kept in a private SharedPreferences file. */
module Store {
  import opened Wrappers
  import opened Locales
  import opened LocaleJson

  const LanguageKey := "language_key"
  const FollowSystemLocaleKey := "follow_system_locale_key"
  const DefaultPreferenceName := "lingver_preference"

  /** A value in the preference file: the file keeps strings and booleans. */
  datatype PrefValue = PrefString(s: string) | PrefBool(b: bool)

  type Prefs = map<string, PrefValue>

  /** The exceptions a read raises: a value of the other type under the key
      (ClassCastException) or a record that is not valid JSON of the expected shape
      (JSONException). */
  datatype ReadError = ClassCast | MalformedJson

  /** Kotlin's Char.isWhitespace: Java whitespace or a Unicode space separator. */
  predicate IsWhitespace(c: char)
  {
    || ('\t' <= c <= '\r')
    || ('\U{001C}' <= c <= ' ')
    || c == '\U{00A0}' || c == '\U{1680}'
    || ('\U{2000}' <= c <= '\U{200A}')
    || c == '\U{2028}' || c == '\U{2029}' || c == '\U{202F}' || c == '\U{205F}' || c == '\U{3000}'
  }

  predicate IsBlank(s: string)
  {
    forall i :: 0 <= i < |s| ==> IsWhitespace(s[i])
  }

  /** What getLocale returns for the preference file `prefs`. */
  function ReadLocale(prefs: Prefs, defaultLocale: Locale): Result<Locale, ReadError>
  {
    if LanguageKey !in prefs then Success(defaultLocale)
    else match prefs[LanguageKey]
      case PrefBool(_) => Failure(ClassCast)
      case PrefString(json) =>
        if IsBlank(json) then Success(defaultLocale)
        else match Decode(json)
          case Some(l) => Success(l)
          case None => Failure(MalformedJson)
  }

  /** What isFollowingSystemLocale returns for the preference file `prefs`. */
  function ReadFollow(prefs: Prefs): Result<bool, ReadError>
  {
    if FollowSystemLocaleKey !in prefs then Success(false)
    else match prefs[FollowSystemLocaleKey]
      case PrefBool(b) => Success(b)
      case PrefString(_) => Failure(ClassCast)
  }

  /** With nothing, or only blanks, stored under the language key, the default locale is read. */
  lemma NothingStoredReadsDefault(prefs: Prefs, defaultLocale: Locale)
    requires LanguageKey !in prefs || (prefs[LanguageKey].PrefString? && IsBlank(prefs[LanguageKey].s))
    ensures ReadLocale(prefs, defaultLocale) == Success(defaultLocale)
  {
  }

  /** A flag that was never written reads false. */
  lemma UnsetFlagReadsFalse(prefs: Prefs)
    requires FollowSystemLocaleKey !in prefs
    ensures ReadFollow(prefs) == Success(false)
  {
  }

  /** Round trip: after persisting `l`, the store reads back `l`, never the default. */
  lemma PersistedLocaleReadsBack(prefs: Prefs, defaultLocale: Locale, l: Locale)
    ensures ReadLocale(prefs[LanguageKey := PrefString(Encode(l))], defaultLocale) == Success(l)
  {
    EncodeStartsWithBrace(l);
    assert !IsWhitespace(Encode(l)[0]);
    DecodeEncode(l);
  }

  /** The last write wins: a second record replaces the first. */
  lemma LastPersistWins(prefs: Prefs, defaultLocale: Locale, l: Locale, m: Locale)
    ensures ReadLocale(prefs[LanguageKey := PrefString(Encode(l))][LanguageKey := PrefString(Encode(m))],
      defaultLocale) == Success(m)
  {
    PersistedLocaleReadsBack(prefs[LanguageKey := PrefString(Encode(l))], defaultLocale, m);
  }

  /** Each write touches only its own key: persisting a locale keeps the flag and setting
      the flag keeps the locale; the flag reads back what was set. */
  lemma WritesTouchOwnKey(prefs: Prefs, defaultLocale: Locale, l: Locale, v: bool)
    ensures ReadFollow(prefs[LanguageKey := PrefString(Encode(l))]) == ReadFollow(prefs)
    ensures ReadLocale(prefs[FollowSystemLocaleKey := PrefBool(v)], defaultLocale) == ReadLocale(prefs, defaultLocale)
    ensures ReadFollow(prefs[FollowSystemLocaleKey := PrefBool(v)]) == Success(v)
  {
  }

  class PreferenceLocaleStore {
    const defaultLocale: Locale
    const preferenceName: string
    /** The contents of the preference file named `preferenceName`. */
    var prefs: Prefs

    /** `saved` is what the preference file holds when the store is created. */
    constructor (defaultLocale: Locale, saved: Prefs, preferenceName: string := DefaultPreferenceName)
      ensures this.defaultLocale == defaultLocale && this.preferenceName == preferenceName
      ensures prefs == saved
    {
      this.defaultLocale := defaultLocale;
      this.preferenceName := preferenceName;
      prefs := saved;
    }

    /** Both reads succeed: the file records a mode. */
    ghost predicate Valid()
      reads this
    {
      ReadLocale(prefs, defaultLocale).Success? && ReadFollow(prefs).Success?
    }

    /** The locale the store reads back, when the record is readable. */
    ghost function ActiveLocale(): Locale
      reads this
      requires ReadLocale(prefs, defaultLocale).Success?
    {
      ReadLocale(prefs, defaultLocale).value
    }

    /** The follow flag the store reads back, when it is readable. */
    ghost function Following(): bool
      reads this
      requires ReadFollow(prefs).Success?
    {
      ReadFollow(prefs).value
    }

    method GetLocale() returns (r: Result<Locale, ReadError>)
      ensures r == ReadLocale(prefs, defaultLocale)
    {
      if LanguageKey in prefs && prefs[LanguageKey].PrefString? && !IsBlank(prefs[LanguageKey].s) {
        var json := Decode(prefs[LanguageKey].s);
        r := if json.Some? then Success(json.value) else Failure(MalformedJson);
      } else if LanguageKey in prefs && prefs[LanguageKey].PrefBool? {
        r := Failure(ClassCast);
      } else {
        r := Success(defaultLocale);
      }
    }

    method PersistLocale(l: Locale)
      modifies this`prefs
      ensures prefs == old(prefs)[LanguageKey := PrefString(Encode(l))]
      ensures ReadLocale(prefs, defaultLocale) == Success(l)
      ensures ReadFollow(prefs) == old(ReadFollow(prefs))
    {
      var json := Encode(l);
      prefs := prefs[LanguageKey := PrefString(json)];
      PersistedLocaleReadsBack(old(prefs), defaultLocale, l);
      WritesTouchOwnKey(old(prefs), defaultLocale, l, false);
    }

    method SetFollowSystemLocale(value: bool)
      modifies this`prefs
      ensures prefs == old(prefs)[FollowSystemLocaleKey := PrefBool(value)]
      ensures ReadFollow(prefs) == Success(value)
      ensures ReadLocale(prefs, defaultLocale) == old(ReadLocale(prefs, defaultLocale))
    {
      prefs := prefs[FollowSystemLocaleKey := PrefBool(value)];
      WritesTouchOwnKey(old(prefs), defaultLocale, defaultLocale, value);
    }

    method IsFollowingSystemLocale() returns (r: Result<bool, ReadError>)
      ensures r == ReadFollow(prefs)
    {
      if FollowSystemLocaleKey !in prefs {
        r := Success(false);
      } else if prefs[FollowSystemLocaleKey].PrefBool? {
        r := Success(prefs[FollowSystemLocaleKey].b);
      } else {
        r := Failure(ClassCast);
      }
    }
  }
}

=== FILE: Wrappers.dfy ===
/** Option and Result values used across the model. */
module Wrappers {

  datatype Option<+T> = None | Some(value: T) {
    predicate IsFailure() {
      None?
    }

    function PropagateFailure<U>(): Option<U>
      requires None?
    {
      None
    }

    function Extract(): T
      requires Some?
    {
      value
    }
  }

  /** A value, or the exception the source would raise instead. */
  datatype Result<+R, +E> = Success(value: R) | Failure(error: E) {
    predicate IsFailure() {
      Failure?
    }

    function PropagateFailure<U>(): Result<U, E>
      requires Failure?
    {
      Failure(error)
    }

    function Extract(): R
      requires Success?
    {
      value
    }
  }
}
